=== FILE: README.md ===
# Product Cart Manager — a Dafny model of the catalog logic

The Product Cart Manager is a single React component (`src/App.jsx`) that keeps an ordered
list of product cards (`name`, `image`, `price`, `info`, `featured`), lets the user add,
edit, delete and feature them through a modal form, filters the cards by a search box,
and shows up to three featured products in a separate section.

This project models that component as pure functions over immutable values:

- `seqs.dfy` (`Seqs`): JavaScript's `filter` and `slice(0, n)` on sequences, and `Pick`, the
  list position behind each position of a filtered sequence, with the lemmas that make a
  filter an order-preserving, complete subsequence.
- `text.dfy` (`Text`): `toLowerCase` on ASCII letters and `includes`, the latter proved equal
  to "some position of the haystack starts an occurrence".
- `catalog.dfy` (`Catalog`): the `Product` record, the list transformations behind the three
  handlers (replace at a position, toggle `featured` at a position, delete at a position),
  the search view and the featured view.
- `app.dfy` (`App`): the component state (`products`, `search`, `showForm`, `editing`,
  `formData`) and one function per handler: `resetForm`, submit, edit, toggle, delete,
  input change, search typing, opening the form.
- `ui.dfy` (`Ui`): the events the page can raise and how they reach the handlers, both as
  written (a card's position in the search view is used as a list position) and corrected.
- `scenarios.dfy` (`Scenarios`): two concrete runs of the page from an empty store, each
  driven by the form's events (open, type, tick, submit) through `Ui.Step`.

Modelling choices:

- `featured` is an `Option<bool>` both on the form and on stored products: `resetForm`
  rebuilds the form record without a `featured` key, so a product submitted after a reset
  has none unless the checkbox was ticked or cleared in between, which stores a boolean. `None` reads as JavaScript `undefined`; only `Some(true)` is truthy, and
  `!undefined` is `true`, so toggling an absent flag yields `Some(true)`.
- The submit guard is JavaScript truthiness of two strings: `name` and `price` must be
  non-empty. `price` stays an opaque string.
- `Edit` requires its position to be in the list. The only caller is a card's Edit button,
  whose number is below the number of cards, which never exceeds the list length; both
  `Ui.Step` and `Ui.StepAsWritten` discharge that requirement from `Enabled`.
- `Ui.Enabled` lets the card buttons, the add button and the search box fire while the
  modal is shown. The modal's backdrop resets the form on any click outside its content
  (src/App.jsx:166), which suggests the page prevents those events then; the model allows
  them, so the lemmas over `Ui.Step` cover every run of the page and some it may not permit.
- The handlers read the latest state in sequence; React's batching of the several
  `set…` calls in one handler is modelled as one state transition.
- The state on start-up takes the stored list as a parameter (`App.Init`).

Toggling a product that has no `featured` key makes it featured (`!undefined` is `true`),
and the card buttons pass a position in the search view rather than in the list (see
Findings).

## Model

| member | source | states |
|---|---|---|
| `Seqs.Filter` | src/App.jsx:89 | `filter` keeps only elements passing the predicate and never lengthens the list |
| `Seqs.Take` | src/App.jsx:93 | `slice(0, n)` is a prefix of length `min(n, length)` |
| `Seqs.FilterAppend` | src/App.jsx:118 | filtering distributes over concatenation, so kept elements stay in list order |
| `Seqs.FilterMembers` | src/App.jsx:118 | an element is in a filtered list iff it is in the list and passes the predicate |
| `Seqs.Pick` | src/App.jsx:118 | position `j` of a filtered list is drawn from a list position whose element passes, equals it, and has exactly `j` passing elements before it |
| `Seqs.PickOrdered` | src/App.jsx:118 | later filtered positions come from strictly later list positions |
| `Seqs.PickComplete` | src/App.jsx:118 | every passing list element appears in the filtered list, at the position counting the passing elements before it |
| `Seqs.PickIdentity` | src/App.jsx:118 | when every element passes, filtered positions equal list positions |
| `Text.Lower` | src/App.jsx:115 | lowering keeps the length, leaves no ASCII capital, and changes a character only from a capital to its small letter |
| `Text.LowerIdempotent` | src/App.jsx:115 | lowering an already lowered string changes nothing |
| `Text.Includes` | src/App.jsx:115 | the scan answers true exactly when some position of the name starts an occurrence of the query |
| `Text.IncludesEmpty` | src/App.jsx:115 | the empty query is contained in every name |
| `Text.IncludesSelf` | src/App.jsx:115 | every name contains itself |
| `Catalog.Negate` | src/App.jsx:53 | `!p.featured` is always a boolean and is true exactly when the flag was not truthy, including when it was absent |
| `Catalog.Replace` | src/App.jsx:44 | the edited position alone takes the form record; an out-of-range position leaves the list unchanged |
| `Catalog.ToggleAt` | src/App.jsx:53 | length and every other product are kept; at the position only the truthiness of `featured` flips and it becomes a boolean |
| `Catalog.DeleteAt` | src/App.jsx:58 | an in-range position yields the list with that one element cut out; an out-of-range one leaves the list unchanged |
| `Catalog.DeleteAtRemovesOne` | src/App.jsx:58 | deleting an existing position shortens the list by one and removes exactly one occurrence of that product |
| `Catalog.DeleteAtShifts` | src/App.jsx:58 | deleting keeps earlier products in place and shifts later ones left by one |
| `Catalog.ToggleTwice` | src/App.jsx:53 | toggling twice restores every field's value and the truthiness of `featured`; a boolean flag comes back exactly, an absent one as `false` |
| `Catalog.SearchView` | src/App.jsx:115-118 | the cards are no more than the products and every card matches the query case-insensitively |
| `Catalog.CardIndex` | src/App.jsx:118 | each card is the product at a list position that matches the query, with exactly as many cards before it as matching products precede that position |
| `Catalog.SearchViewIsOrderedSubsequence` | src/App.jsx:118 | the cards are exactly the matching products, in list order: positions map strictly increasingly and every matching product has a card |
| `Catalog.EmptyQueryShowsAll` | src/App.jsx:118 | an empty search box draws the whole list, so card positions are list positions |
| `Catalog.AllMatchShowsAll` | src/App.jsx:118 | a query every product matches draws the whole list in place |
| `Catalog.SearchViewAfterAppend` | src/App.jsx:115-118 | an appended product becomes the last card iff it matches, and earlier cards are unchanged |
| `Catalog.FeaturedView` | src/App.jsx:93 | at most three cards, all featured, the prefix of the featured products in list order, three unless fewer exist |
| `Catalog.ShowFeatured` | src/App.jsx:89 | the featured section is rendered iff some product is featured, iff the featured view is non-empty |
| `Catalog.FeaturedViewAfterAppend` | src/App.jsx:93 | with three featured already shown an appended product changes nothing; otherwise a featured one is shown last |
| `App.Init` | src/App.jsx:5-19 | start-up holds the stored list, an empty query and a closed, blank form whose `featured` is `false` (present, unlike after a reset) |
| `App.Reset` | src/App.jsx:26-30 | reset closes the form, clears `editing`, blanks every text field, drops `featured`, and keeps list and query |
| `App.Open` | src/App.jsx:160 | the add button shows the form and keeps `editing`, the record, the list and the query |
| `App.Submit` | src/App.jsx:40-49 | an invalid record changes nothing; a valid one is appended as the last element keeping every earlier one, or replaces only the edited position (none if out of range), and the form ends closed and blank with no `featured` key |
| `App.Edit` | src/App.jsx:62-66 | edit opens the form on the product at that position and records the position as edited |
| `App.Toggle` | src/App.jsx:52-54 | only the `featured` truthiness of the product at the position changes and the flag becomes a boolean; form and query are kept |
| `App.Delete` | src/App.jsx:56-60 | the confirmed delete cuts out exactly the product at the position, or nothing if out of range; form and query are kept |
| `App.SetSearch` | src/App.jsx:82 | typing in the search box replaces the query only |
| `App.ChangeText` | src/App.jsx:32-38 | typing in one text input changes that field of the record and nothing else |
| `App.ChangeFeatured` | src/App.jsx:32-38 | ticking the checkbox makes `featured` the checkbox's boolean and changes nothing else |
| `App.SubmitKeepsAllValid` | src/App.jsx:42-47 | a list of records with name and price keeps that property through any submit |
| `App.ToggleDeleteKeepAllValid` | src/App.jsx:52-59 | toggling and deleting keep every product's name and price non-empty |
| `App.EditThenSubmitKeepsProducts` | src/App.jsx:43-48 | opening a valid product for editing and submitting it unchanged leaves the list as it was and the form closed and blank |
| `App.InvalidSubmitKeepsForm` | src/App.jsx:42 | an empty name or price leaves the list and the whole form (open, editing, record) unchanged |
| `Ui.Enabled` | src/App.jsx:79-165 | form events only while the modal is shown; card events only for drawn cards, whose positions are therefore positions of the list; the add button and the search box always |
| `Ui.FormStep` | src/App.jsx:82-208 | the search box, add button, close controls, submit and inputs reach their handlers: only a submit changes the list, only the search box changes the query, opening shows the form, closing hides it and clears the edit, typing keeps the form open on the same edit |
| `Ui.StepAsWritten` | src/App.jsx:144-150 | as written, a card button acts on the list position equal to the card's position in the search view: Edit opens and records that position, Delete cuts it out, Feature toggles it, each leaving everything else unchanged |
| `Ui.Step` | src/App.jsx:144-150 | with card positions translated, Edit opens the drawn product and records its own list position, Delete cuts out exactly that position, Feature toggles exactly that position, each leaving everything else unchanged |
| `Ui.EditCardThenSubmitReplacesDrawnProduct` | src/App.jsx:43-44 | editing a card and submitting any valid record replaces the drawn product at its list position and nothing else |
| `Ui.StepsAgreeWhenAllShown` | src/App.jsx:118-150 | when the query matches every product both wirings give the same state |
| `Ui.AsWrittenDeletesWrongProduct` | src/App.jsx:147 | with products "a", "b" and query "b", the Delete button of the only card removes "a" as written and "b" when corrected |
| `Ui.StepKeepsAllValid` | src/App.jsx:40-66 | no event the page can raise puts a product without name or price into a valid list |
| `Scenarios.WidgetIsFoundCaseInsensitively` | src/App.jsx:115-118 | adding "Widget" from an empty store and searching "widget" draws exactly that product |
| `Scenarios.AddAppends` | src/App.jsx:32-49 | opening the form, typing a name and price, optionally ticking the checkbox and submitting appends that product and leaves the form blank with no `featured` key |
| `Scenarios.AddProduct` | src/App.jsx:32-49 | the same add as a step of a longer run, exposing only the appended list and the blank form |
| `Scenarios.FeaturedOfLists` | src/App.jsx:93 | one non-featured product followed by four featured ones gives a featured section of the first three featured, with or without the fourth |
| `Scenarios.FirstThreeFeaturedAreShown` | src/App.jsx:93 | adding A, then featured B, C, D and E through the page from an empty store stores A with `false` and shows B, C, D in the featured section |

## Left out

- Persistence: reading the list from `localStorage` and parsing it, and writing it back after every change (src/App.jsx:5-8, 21-24). The store is foreign and a malformed stored value is not handled by the code; `App.Init` takes the loaded list as a parameter instead.
- The confirmation dialog (`window.confirm`, src/App.jsx:57): a UI side effect; `App.Delete` is the confirmed branch.
- Console logging (src/App.jsx:22): a debugging side effect.
- Rendering, styling, the modal's click-outside detection (modelled only as the `CloseForm` event, which calls `resetForm`) and the image `onError` DOM manipulation (src/App.jsx:126-130).
- The modal title and button label (`editing ? …`, src/App.jsx:168, 214) treat position 0 as "not editing"; they only change labels.
- React's warning when the checkbox of a form re-opened after a reset (`checked={undefined}`) is ticked and so goes from uncontrolled to controlled: it has no effect on the state.
- Number-input semantics of `price`: it is an opaque string, validated only by truthiness.
- Text.Lower: lowers ASCII capitals only, because full Unicode case mapping of `toLowerCase` is not modelled; non-ASCII names are compared as given.

## Findings

| source | as written | input that shows it | evidently intended | confidence | as-written member | corrected member |
|---|---|---|---|---|---|---|
| src/App.jsx:144-150 | the Edit, Delete and Feature buttons pass the card's position in the search-filtered list, and the handlers (src/App.jsx:53, 58, 63) use it as a position in the full list | products "a" and "b", query "b": the only card drawn is "b", and its Delete button removes "a" | each button acts on the product drawn on its card | high (not executed) | Ui.StepAsWritten, with Ui.AsWrittenDeletesWrongProduct | Ui.Step |

=== FILE: app.dfy ===
/** The state of the `App` component (`products`, `search`, `showForm`, `editing`,
    `formData`) and its event handlers, each a pure function from state to state. */
module App {
  import opened Wrappers
  import opened Catalog

  /** The modal form: whether it is shown, the list position being edited (`null` is
      `None`), and the record the inputs are bound to. */
  datatype Form = Form(open: bool, editing: Option<nat>, data: Product)

  datatype State = State(products: seq<Product>, search: string, form: Form)

  /** The text inputs of the form, by their `name` attribute. */
  datatype TextField = Name | Image | Price | Info

  /** The form record the component starts with: empty strings, `featured: false`. */
  const InitialData: Product := Product("", "", "", "", Some(false))

  /** The form record `resetForm` installs: empty strings and no `featured` key. */
  const ResetData: Product := Product("", "", "", "", None)

  /** The form is closed, edits nothing, and every text field of its record is empty. */
  predicate ClosedAndBlank(f: Form) {
    !f.open && f.editing.None? &&
    f.data.name == "" && f.data.image == "" && f.data.price == "" && f.data.info == ""
  }

  /** The state on start-up, given the list read back from the browser store. */
  function Init(stored: seq<Product>): (s: State)
    ensures s.products == stored && s.search == ""
    ensures ClosedAndBlank(s.form) && s.form.data.featured == Some(false)
  {
    State(stored, "", Form(false, None, InitialData))
  }

  /** `resetForm`: closes the form, clears `editing` and blanks the record. */
  function Reset(s: State): (r: State)
    ensures ClosedAndBlank(r.form) && r.form.data.featured.None?
    ensures r.products == s.products && r.search == s.search
  {
    s.(form := Form(false, None, ResetData))
  }

  /** The "Add New Product" button: shows the form and changes nothing else. */
  function Open(s: State): (r: State)
    ensures r.form.open
    ensures r.form.editing == s.form.editing && r.form.data == s.form.data
    ensures r.products == s.products && r.search == s.search
  {
    s.(form := s.form.(open := true))
  }

  /** The list after a valid submit: the record replaces the edited position, or is appended. */
  function Store(ps: seq<Product>, editing: Option<nat>, data: Product): seq<Product> {
    match editing
    case Some(i) => Replace(ps, i, data)
    case None => ps + [data]
  }

  /** `handleFormSubmit`: an invalid record changes nothing; a valid one is stored and the
      form is reset. */
  function Submit(s: State): (r: State)
    ensures !Valid(s.form.data) ==> r == s
    ensures Valid(s.form.data) ==> ClosedAndBlank(r.form) && r.form.data.featured.None? && r.search == s.search
    ensures Valid(s.form.data) && s.form.editing.None? ==>
      |r.products| == |s.products| + 1 &&
      r.products[..|s.products|] == s.products &&
      r.products[|s.products|] == s.form.data
    ensures Valid(s.form.data) && s.form.editing.Some? && s.form.editing.value < |s.products| ==>
      r.products == s.products[s.form.editing.value := s.form.data]
    ensures Valid(s.form.data) && s.form.editing.Some? && s.form.editing.value >= |s.products| ==>
      r.products == s.products
  {
    if !Valid(s.form.data) then s
    else Reset(s.(products := Store(s.products, s.form.editing, s.form.data)))
  }

  /** `handleEditProduct`: opens the form on a copy of the product at `index`. The index
      always comes from a card, so it is a position of the list. */
  function Edit(s: State, index: nat): (r: State)
    requires index < |s.products|
    ensures r.form.open && r.form.editing == Some(index) && r.form.data == s.products[index]
    ensures r.products == s.products && r.search == s.search
  {
    s.(form := Form(true, Some(index), s.products[index]))
  }

  /** `handleToggleFeatured`: flips `featured` at `index`; the form and query are untouched. */
  function Toggle(s: State, index: nat): (r: State)
    ensures |r.products| == |s.products|
    ensures forall j :: 0 <= j < |s.products| && j != index ==> r.products[j] == s.products[j]
    ensures index < |s.products| ==>
      SameExceptFeatured(r.products[index], s.products[index]) &&
      r.products[index].featured.Some? &&
      (IsFeatured(r.products[index]) <==> !IsFeatured(s.products[index]))
    ensures r.form == s.form && r.search == s.search
  {
    s.(products := ToggleAt(s.products, index))
  }

  /** `handleDeleteProduct` once the user has confirmed. */
  function Delete(s: State, index: nat): (r: State)
    ensures index < |s.products| ==>
      |r.products| == |s.products| - 1 && r.products == s.products[..index] + s.products[index + 1..]
    ensures index >= |s.products| ==> r.products == s.products
    ensures r.form == s.form && r.search == s.search
  {
    s.(products := DeleteAt(s.products, index))
  }

  /** Typing in the search box. */
  function SetSearch(s: State, query: string): (r: State)
    ensures r.search == query && r.products == s.products && r.form == s.form
  {
    s.(search := query)
  }

  /** `handleInputChange` for a text input: only that field of the record changes. */
  function ChangeText(s: State, field: TextField, value: string): (r: State)
    ensures r.products == s.products && r.search == s.search
    ensures r.form.open == s.form.open && r.form.editing == s.form.editing
    ensures r.form.data.featured == s.form.data.featured
    ensures r.form.data.name == (if field == Name then value else s.form.data.name)
    ensures r.form.data.image == (if field == Image then value else s.form.data.image)
    ensures r.form.data.price == (if field == Price then value else s.form.data.price)
    ensures r.form.data.info == (if field == Info then value else s.form.data.info)
  {
    var d := s.form.data;
    var d' := match field
      case Name => d.(name := value)
      case Image => d.(image := value)
      case Price => d.(price := value)
      case Info => d.(info := value);
    s.(form := s.form.(data := d'))
  }

  /** `handleInputChange` for the checkbox: `featured` becomes a boolean. */
  function ChangeFeatured(s: State, checked: bool): (r: State)
    ensures r.form.data.featured == Some(checked)
    ensures SameExceptFeatured(r.form.data, s.form.data)
    ensures r.products == s.products && r.search == s.search
    ensures r.form.open == s.form.open && r.form.editing == s.form.editing
  {
    s.(form := s.form.(data := s.form.data.(featured := Some(checked))))
  }

  // ---------------------------------------------------------------- properties

  /** Every product in the list passed the submit guard. */
  predicate AllValid(ps: seq<Product>) {
    forall i :: 0 <= i < |ps| ==> Valid(ps[i])
  }

  /** Submitting never lets an invalid record into a list of valid records. */
  lemma SubmitKeepsAllValid(s: State)
    requires AllValid(s.products)
    ensures AllValid(Submit(s).products)
  {
    if Valid(s.form.data) {
      match s.form.editing
      case None =>
        var r := Submit(s).products;
        assert forall i :: 0 <= i < |s.products| ==> r[i] == s.products[i];
      case Some(_) =>
    }
  }

  /** Toggling and deleting keep a list of valid records valid. */
  lemma ToggleDeleteKeepAllValid(s: State, index: nat)
    requires AllValid(s.products)
    ensures AllValid(Toggle(s, index).products)
    ensures AllValid(Delete(s, index).products)
  {
    if index < |s.products| {
      DeleteAtRemovesOne(s.products, index);
    }
  }

  /** Opening a product for editing and submitting it unchanged leaves the list as it was. */
  lemma EditThenSubmitKeepsProducts(s: State, index: nat)
    requires index < |s.products| && Valid(s.products[index])
    ensures Submit(Edit(s, index)).products == s.products
    ensures ClosedAndBlank(Submit(Edit(s, index)).form)
  {
    assert s.products[index := s.products[index]] == s.products;
  }

  /** A record that fails validation keeps the form as it was (open, editing, record)
      and the list unchanged, whatever the list holds. */
  lemma InvalidSubmitKeepsForm(s: State)
    requires s.form.data.name == "" || s.form.data.price == ""
    ensures Submit(s).form == s.form && Submit(s).products == s.products
  {
  }
}

=== FILE: catalog.dfy ===
/** The product list held by the `App` component of `src/App.jsx`, and the pure list
    transformations its handlers and views apply to it. Positions are the only identity
    a product has. */
module Catalog {
  import opened Wrappers
  import opened Seqs
  import opened Text

  /** One product card. `featured` is `None` when the record has no `featured` key,
      which is what a product submitted after a form reset looks like. */
  datatype Product = Product(name: string, image: string, price: string, info: string, featured: Option<bool>)

  /** JavaScript truthiness of the `featured` property. */
  predicate Truthy(flag: Option<bool>) {
    flag == Some(true)
  }

  /** `!flag` in JavaScript: always a boolean, and true exactly when `flag` was not truthy
      (in particular `!undefined` is `true`). */
  function Negate(flag: Option<bool>): (r: Option<bool>)
    ensures r.Some?
    ensures Truthy(r) <==> !Truthy(flag)
  {
    Some(!Truthy(flag))
  }

  predicate IsFeatured(p: Product) {
    Truthy(p.featured)
  }

  /** The submit guard: both `name` and `price` are non-empty, i.e. truthy strings. */
  predicate Valid(p: Product) {
    p.name != "" && p.price != ""
  }

  /** The number of cards the featured section shows at most. */
  const FeaturedLimit: nat := 3

  /** `prev.map((p, i) => i === index ? p2 : p)`: the update of the product at position `index`. */
  function Replace(ps: seq<Product>, index: nat, p: Product): (r: seq<Product>)
    ensures index < |ps| ==> r == ps[index := p]
    ensures index >= |ps| ==> r == ps
  {
    seq(|ps|, j requires 0 <= j < |ps| => if j == index then p else ps[j])
  }

  /** Two products that agree on every field except possibly `featured`. */
  predicate SameExceptFeatured(p: Product, q: Product) {
    p.name == q.name && p.image == q.image && p.price == q.price && p.info == q.info
  }

  /** `prev.map((p, i) => i === index ? { ...p, featured: !p.featured } : p)`. */
  function ToggleAt(ps: seq<Product>, index: nat): (r: seq<Product>)
    ensures |r| == |ps|
    ensures forall j :: 0 <= j < |ps| && j != index ==> r[j] == ps[j]
    ensures index < |ps| ==> SameExceptFeatured(r[index], ps[index])
    ensures index < |ps| ==> r[index].featured.Some? && (IsFeatured(r[index]) <==> !IsFeatured(ps[index]))
  {
    seq(|ps|, j requires 0 <= j < |ps| => if j == index then ps[j].(featured := Negate(ps[j].featured)) else ps[j])
  }

  /** `prev.filter((_, i) => i !== index)`: every position but `index`, in order. */
  function DeleteAt(ps: seq<Product>, index: nat): (r: seq<Product>)
    ensures index < |ps| ==> r == ps[..index] + ps[index + 1..]
    ensures index >= |ps| ==> r == ps
  {
    if index < |ps| then
      var r := seq(|ps| - 1, j requires 0 <= j < |ps| - 1 => if j < index then ps[j] else ps[j + 1]);
      assert r == ps[..index] + ps[index + 1..];
      r
    else
      ps
  }

  /** Deleting an existing position shortens the list by one and removes exactly one
      occurrence of that product. */
  lemma DeleteAtRemovesOne(ps: seq<Product>, index: nat)
    requires index < |ps|
    ensures |DeleteAt(ps, index)| == |ps| - 1
    ensures multiset(DeleteAt(ps, index)) + multiset{ps[index]} == multiset(ps)
  {
    CutFacts(ps, index);
  }

  /** Deleting keeps the products before the position in place and moves the ones after
      it left by one. */
  lemma DeleteAtShifts(ps: seq<Product>, index: nat)
    requires index < |ps|
    ensures forall j :: 0 <= j < index ==> DeleteAt(ps, index)[j] == ps[j]
    ensures forall j :: index <= j < |ps| - 1 ==> DeleteAt(ps, index)[j] == ps[j + 1]
  {
  }

  /** Toggling the same position twice restores its truthiness and every other field;
      a boolean flag comes back exactly, an absent one comes back as `false`. */
  lemma ToggleTwice(ps: seq<Product>, index: nat)
    ensures |ToggleAt(ToggleAt(ps, index), index)| == |ps|
    ensures forall j :: 0 <= j < |ps| ==>
      var q := ToggleAt(ToggleAt(ps, index), index)[j];
      SameExceptFeatured(q, ps[j]) && (IsFeatured(q) <==> IsFeatured(ps[j]))
    ensures index < |ps| && ps[index].featured.Some? ==> ToggleAt(ToggleAt(ps, index), index) == ps
    ensures index < |ps| && ps[index].featured.None? ==>
      ToggleAt(ToggleAt(ps, index), index) == ps[index := ps[index].(featured := Some(false))]
  {
    var twice := ToggleAt(ToggleAt(ps, index), index);
    if index < |ps| {
      var once := ToggleAt(ps, index);
      assert once[index] == ps[index].(featured := Negate(ps[index].featured));
      assert twice[index] == once[index].(featured := Negate(once[index].featured));
    }
    if index < |ps| && ps[index].featured.Some? {
      var b := ps[index].featured.value;
      assert Negate(Some(b)) == Some(!b);
      assert Negate(Some(!b)) == Some(b);
      assert twice[index] == ps[index];
      assert forall j :: 0 <= j < |ps| ==> twice[j] == ps[j];
    }
  }

  // ---------------------------------------------------------------- views

  /** The search-box predicate: the lowered name contains the lowered query. */
  predicate Matches(query: string, p: Product) {
    Includes(Lower(p.name), Lower(query))
  }

  function MatchesQuery(query: string): Product -> bool {
    p => Matches(query, p)
  }

  /** The cards of the product list: the products whose name matches the query, in list order. */
  function SearchView(ps: seq<Product>, query: string): (r: seq<Product>)
    ensures |r| <= |ps|
    ensures forall j :: 0 <= j < |r| ==> Matches(query, r[j])
  {
    Filter(ps, MatchesQuery(query))
  }

  /** The list position of the product drawn as card `idx` of the search view: it holds
      that product, matches, and exactly `idx` cards come from the positions before it,
      so it is that card's own position even when the list repeats a product. */
  function CardIndex(ps: seq<Product>, query: string, idx: nat): (i: nat)
    requires idx < |SearchView(ps, query)|
    ensures i < |ps| && ps[i] == SearchView(ps, query)[idx]
    ensures Matches(query, ps[i])
    ensures i < |ps| && |SearchView(ps[..i], query)| == idx
  {
    Pick(ps, MatchesQuery(query), idx)
  }

  /** The search view is exactly the matching products in list order: card positions map
      to list positions strictly increasingly, every matching product gets a card, and a
      product is in the view iff it is in the list and matches. */
  lemma SearchViewIsOrderedSubsequence(ps: seq<Product>, query: string)
    ensures forall a, b :: 0 <= a < b < |SearchView(ps, query)| ==>
      CardIndex(ps, query, a) < CardIndex(ps, query, b)
    ensures forall i :: 0 <= i < |ps| && Matches(query, ps[i]) ==>
      exists idx :: 0 <= idx < |SearchView(ps, query)| && CardIndex(ps, query, idx) == i
    ensures forall p :: p in SearchView(ps, query) <==> p in ps && Matches(query, p)
  {
    var f := MatchesQuery(query);
    forall a, b | 0 <= a < b < |SearchView(ps, query)|
      ensures CardIndex(ps, query, a) < CardIndex(ps, query, b)
    {
      PickOrdered(ps, f, a, b);
    }
    forall i | 0 <= i < |ps| && Matches(query, ps[i])
      ensures exists idx :: 0 <= idx < |SearchView(ps, query)| && CardIndex(ps, query, idx) == i
    {
      PickComplete(ps, f, i);
      var idx := |Filter(ps[..i], f)|;
      assert CardIndex(ps, query, idx) == i;
    }
    forall p
      ensures p in SearchView(ps, query) <==> p in ps && Matches(query, p)
    {
      FilterMembers(ps, f, p);
    }
  }

  /** An empty query shows every product, so card positions are list positions. */
  lemma EmptyQueryShowsAll(ps: seq<Product>)
    ensures SearchView(ps, "") == ps
    ensures forall idx :: 0 <= idx < |ps| ==> CardIndex(ps, "", idx) == idx
  {
    AllMatchShowsAll(ps, "");
  }

  /** More generally, a query every product matches shows the whole list in place. */
  lemma AllMatchShowsAll(ps: seq<Product>, query: string)
    requires (forall i :: 0 <= i < |ps| ==> Matches(query, ps[i])) || query == ""
    ensures SearchView(ps, query) == ps
    ensures forall idx :: 0 <= idx < |ps| ==> CardIndex(ps, query, idx) == idx
  {
    var f := MatchesQuery(query);
    if query == "" {
      forall i | 0 <= i < |ps| ensures Matches(query, ps[i]) {
        IncludesEmpty(Lower(ps[i].name));
      }
    }
    FilterKeepsAll(ps, f);
    forall idx | 0 <= idx < |ps| ensures CardIndex(ps, query, idx) == idx {
      PickIdentity(ps, f, idx);
    }
  }

  /** The featured section: at most the first three featured products, in list order. */
  function FeaturedView(ps: seq<Product>): (r: seq<Product>)
    ensures |r| <= FeaturedLimit
    ensures forall j :: 0 <= j < |r| ==> IsFeatured(r[j])
    ensures r <= Filter(ps, IsFeatured)
    ensures |r| == if |Filter(ps, IsFeatured)| < FeaturedLimit then |Filter(ps, IsFeatured)| else FeaturedLimit
  {
    Take(Filter(ps, IsFeatured), FeaturedLimit)
  }

  /** The featured section is rendered iff some product is featured. */
  function ShowFeatured(ps: seq<Product>): (b: bool)
    ensures b <==> exists i :: 0 <= i < |ps| && IsFeatured(ps[i])
    ensures b <==> |FeaturedView(ps)| > 0
  {
    var featured := Filter(ps, IsFeatured);
    if |featured| > 0 then
      assert IsFeatured(featured[0]);
      FilterMembers(ps, IsFeatured, featured[0]);
      true
    else
      assert forall i :: 0 <= i < |ps| ==> !IsFeatured(ps[i]) by {
        forall i | 0 <= i < |ps| ensures !IsFeatured(ps[i]) {
          FilterMembers(ps, IsFeatured, ps[i]);
        }
      }
      false
  }

  /** A product appended to the list is drawn as the last card iff it matches the query;
      the cards before it are unchanged. */
  lemma SearchViewAfterAppend(ps: seq<Product>, p: Product, query: string)
    ensures Matches(query, p) ==> SearchView(ps + [p], query) == SearchView(ps, query) + [p]
    ensures !Matches(query, p) ==> SearchView(ps + [p], query) == SearchView(ps, query)
  {
    FilterAppend(ps, [p], MatchesQuery(query));
    FilterSingle(p, MatchesQuery(query));
  }

  /** Once three products are featured, appending a product never changes the featured
      section; before that, a featured product appended is shown last. */
  lemma FeaturedViewAfterAppend(ps: seq<Product>, p: Product)
    ensures |FeaturedView(ps)| == FeaturedLimit ==> FeaturedView(ps + [p]) == FeaturedView(ps)
    ensures |FeaturedView(ps)| < FeaturedLimit && IsFeatured(p) ==> FeaturedView(ps + [p]) == FeaturedView(ps) + [p]
    ensures !IsFeatured(p) ==> FeaturedView(ps + [p]) == FeaturedView(ps)
  {
    FilterAppend(ps, [p], IsFeatured);
    FilterSingle(p, IsFeatured);
    var featured := Filter(ps, IsFeatured);
    if |FeaturedView(ps)| == FeaturedLimit {
      assert (featured + [p])[..FeaturedLimit] == featured[..FeaturedLimit];
    }
  }
}

=== FILE: scenarios.dfy ===
/** Concrete runs of the page from an empty store. */
module Scenarios {
  import opened Wrappers
  import opened Catalog
  import opened App
  import opened Ui

  /** Add a product named "Widget" priced "9.99" and search for "widget": the only card
      drawn is that product, with the `featured: false` the initial form carries. */
  lemma WidgetIsFoundCaseInsensitively()
    ensures
      var s0 := Init([]);
      var s1 := Step(s0, OpenForm);
      var s2 := Step(s1, TypeText(Name, "Widget"));
      var s3 := Step(s2, TypeText(Price, "9.99"));
      var s4 := Step(s3, SubmitForm);
      var s5 := Step(s4, TypeSearch("widget"));
      s5.products == [Product("Widget", "", "9.99", "", Some(false))] &&
      Cards(s5) == s5.products &&
      !s5.form.open
  {
    var s0 := Init([]);
    var s1 := Step(s0, OpenForm);
    var s2 := Step(s1, TypeText(Name, "Widget"));
    var s3 := Step(s2, TypeText(Price, "9.99"));
    var s4 := Step(s3, SubmitForm);
    var s5 := Step(s4, TypeSearch("widget"));
    var w := Product("Widget", "", "9.99", "", Some(false));
    assert s3.form.data == w;
    assert s4.products == [] + [w];
    assert Text.Lower("Widget") == "widget" by {
      assert Text.LowerChar('W') == 'w';
    }
    Text.IncludesSelf("widget");
    Text.LowerIdempotent("widget");
    SearchViewAfterAppend([], w, "widget");
  }

  /** One product added through the page: open the form, type a name and a price, tick
      the checkbox if `feature`, and submit. */
  function Add(s: State, name: string, price: string, feature: bool): State {
    var s1 := Step(s, OpenForm);
    var s2 := Step(s1, TypeText(Name, name));
    var s3 := Step(s2, TypeText(Price, price));
    var s4 := if feature then Step(s3, CheckFeatured(true)) else s3;
    Step(s4, SubmitForm)
  }

  /** From a closed blank form, adding a product appends it with the typed fields; an
      unticked checkbox keeps whatever `featured` the blank form held. */
  lemma AddAppends(s: State, name: string, price: string, feature: bool)
    requires name != "" && price != ""
    requires s.form.editing.None? && s.form.data.image == "" && s.form.data.info == ""
    ensures Add(s, name, price, feature).products ==
      s.products + [Product(name, "", price, "", if feature then Some(true) else s.form.data.featured)]
    ensures Add(s, name, price, feature).form.data == ResetData
    ensures Add(s, name, price, feature).form.editing.None?
  {
  }

  /** `Add` as a step of a longer run: the caller sees the appended list and the blank
      form, not the events that produced them. */
  method AddProduct(s: State, name: string, price: string, feature: bool) returns (r: State)
    requires name != "" && price != ""
    requires s.form.editing.None? && s.form.data.image == "" && s.form.data.info == ""
    ensures r.products ==
      s.products + [Product(name, "", price, "", if feature then Some(true) else s.form.data.featured)]
    ensures r.form.data == ResetData && r.form.editing.None?
  {
    r := Add(s, name, price, feature);
    AddAppends(s, name, price, feature);
  }

  /** From an empty store, add "A", then featured "B", "C", "D" and "E": the featured
      section shows B, C, D, and no more; "A" keeps the `false` of the initial form. */
  method FirstThreeFeaturedAreShown() returns (s4: State, s5: State)
    ensures s5.products == [
      Product("A", "", "1", "", Some(false)), Product("B", "", "2", "", Some(true)),
      Product("C", "", "3", "", Some(true)), Product("D", "", "4", "", Some(true)),
      Product("E", "", "5", "", Some(true))]
    ensures FeaturedView(s4.products) == [
      Product("B", "", "2", "", Some(true)), Product("C", "", "3", "", Some(true)),
      Product("D", "", "4", "", Some(true))]
    ensures FeaturedView(s5.products) == FeaturedView(s4.products)
    ensures ShowFeatured(s4.products)
  {
    var a := Product("A", "", "1", "", Some(false));
    var b := Product("B", "", "2", "", Some(true));
    var c := Product("C", "", "3", "", Some(true));
    var d := Product("D", "", "4", "", Some(true));
    var e := Product("E", "", "5", "", Some(true));
    var s1 := AddProduct(Init([]), "A", "1", false);
    var s2 := AddProduct(s1, "B", "2", true);
    var s3 := AddProduct(s2, "C", "3", true);
    s4 := AddProduct(s3, "D", "4", true);
    s5 := AddProduct(s4, "E", "5", true);
    assert s4.products == [a, b, c, d];
    FeaturedOfLists(a, b, c, d, e);
  }

  /** One non-featured product followed by four featured ones: the featured section shows
      the first three of those, whether or not the fourth is there. */
  lemma FeaturedOfLists(a: Product, b: Product, c: Product, d: Product, e: Product)
    requires !IsFeatured(a) && IsFeatured(b) && IsFeatured(c) && IsFeatured(d) && IsFeatured(e)
    ensures FeaturedView([a, b, c, d]) == [b, c, d]
    ensures FeaturedView([a, b, c, d, e]) == [b, c, d]
    ensures ShowFeatured([a, b, c, d])
  {
    FeaturedViewAfterAppend([], a);
    assert [] + [a] == [a];
    FeaturedViewAfterAppend([a], b);
    assert [a] + [b] == [a, b];
    FeaturedViewAfterAppend([a, b], c);
    assert [a, b] + [c] == [a, b, c];
    FeaturedViewAfterAppend([a, b, c], d);
    assert [a, b, c] + [d] == [a, b, c, d];
    FeaturedViewAfterAppend([a, b, c, d], e);
    assert [a, b, c, d] + [e] == [a, b, c, d, e];
  }
}

=== FILE: seqs.dfy ===
/** The array operations the catalog is built from: JavaScript's `filter` and `slice(0, n)`,
    taken over immutable sequences, together with the facts that tie a filtered
    sequence back to the positions of the sequence it came from. */
module Seqs {

  /** The elements of `s` that satisfy `f`, in their original order. */
  function Filter<T>(s: seq<T>, f: T -> bool): (r: seq<T>)
    ensures |r| <= |s|
    ensures forall j :: 0 <= j < |r| ==> f(r[j])
  {
    if |s| == 0 then []
    else if f(s[0]) then [s[0]] + Filter(s[1..], f)
    else Filter(s[1..], f)
  }

  /** The first `n` elements of `s`, or all of them when there are fewer (`s.slice(0, n)`). */
  function Take<T>(s: seq<T>, n: nat): (r: seq<T>)
    ensures |r| == if |s| < n then |s| else n
    ensures r <= s
  {
    if |s| < n then s else s[..n]
  }

  /** Filtering distributes over concatenation: the relative order of the kept
      elements is the order of the original sequence. */
  lemma {:induction false} FilterAppend<T>(a: seq<T>, b: seq<T>, f: T -> bool)
    ensures Filter(a + b, f) == Filter(a, f) + Filter(b, f)
  {
    if |a| == 0 {
      assert a + b == b;
    } else {
      assert (a + b)[0] == a[0];
      assert (a + b)[1..] == a[1..] + b;
      FilterAppend(a[1..], b, f);
    }
  }

  /** A filter that every element passes returns the sequence itself. */
  lemma {:induction false} FilterKeepsAll<T>(s: seq<T>, f: T -> bool)
    requires forall j :: 0 <= j < |s| ==> f(s[j])
    ensures Filter(s, f) == s
  {
    if |s| != 0 {
      assert forall j :: 0 <= j < |s[1..]| ==> f(s[1..][j]) by {
        forall j | 0 <= j < |s[1..]| ensures f(s[1..][j]) {
          assert s[1..][j] == s[j + 1];
        }
      }
      FilterKeepsAll(s[1..], f);
    }
  }

  /** An element is kept iff it occurs in `s` and passes `f`. */
  lemma {:induction false} FilterMembers<T>(s: seq<T>, f: T -> bool, x: T)
    ensures x in Filter(s, f) <==> x in s && f(x)
  {
    if |s| != 0 {
      FilterMembers(s[1..], f, x);
      assert s == [s[0]] + s[1..];
    }
  }

  /** The filter of a one-element sequence. */
  lemma FilterSingle<T>(x: T, f: T -> bool)
    ensures Filter([x], f) == if f(x) then [x] else []
  {
    assert [x][1..] == [];
  }

  /** Extending a prefix by one element adds that element to the filter iff it passes. */
  lemma FilterPrefixStep<T>(s: seq<T>, i: nat, f: T -> bool)
    requires i < |s|
    ensures Filter(s[..i + 1], f) == Filter(s[..i], f) + (if f(s[i]) then [s[i]] else [])
  {
    assert s[..i + 1] == s[..i] + [s[i]];
    FilterAppend(s[..i], [s[i]], f);
    FilterSingle(s[i], f);
  }

  /** The number of kept elements in a prefix never decreases as the prefix grows. */
  lemma FilterPrefixMonotone<T>(s: seq<T>, a: nat, b: nat, f: T -> bool)
    requires a <= b <= |s|
    ensures |Filter(s[..a], f)| <= |Filter(s[..b], f)|
  {
    assert s[..b] == s[..a] + s[a..b];
    FilterAppend(s[..a], s[a..b], f);
  }

  /** Filtering a sequence with a known first element. */
  lemma FilterCons<T>(s: seq<T>, f: T -> bool)
    requires |s| > 0
    ensures Filter(s, f) == (if f(s[0]) then [s[0]] else []) + Filter(s[1..], f)
  {
  }

  /** The position in `s` of the element shown at position `j` of `Filter(s, f)`:
      it passes `f`, it is that element, and exactly `j` kept elements precede it. */
  function Pick<T>(s: seq<T>, f: T -> bool, j: nat): (i: nat)
    requires j < |Filter(s, f)|
    ensures i < |s| && f(s[i]) && s[i] == Filter(s, f)[j]
    ensures |Filter(s[..i], f)| == j
  {
    FilterCons(s, f);
    if f(s[0]) && j == 0 then
      assert s[..0] == [];
      0
    else
      var j' := if f(s[0]) then j - 1 else j;
      var i' := Pick(s[1..], f, j');
      PickStep(s, f, i');
      1 + i'
  }

  /** A prefix of length `i + 1` of `s` is its head followed by a prefix of its tail. */
  lemma PickStep<T>(s: seq<T>, f: T -> bool, i: nat)
    ensures i < |s| - 1 ==> s[1 + i] == s[1..][i]
    ensures i < |s| - 1 ==>
      Filter(s[..1 + i], f) == (if f(s[0]) then [s[0]] else []) + Filter(s[1..][..i], f)
  {
    if i < |s| - 1 {
      assert s[..1 + i] == [s[0]] + s[1..][..i];
      FilterAppend([s[0]], s[1..][..i], f);
      FilterSingle(s[0], f);
    }
  }

  /** Distinct view positions come from distinct source positions, in the same order. */
  lemma PickOrdered<T>(s: seq<T>, f: T -> bool, j1: nat, j2: nat)
    requires j1 < j2 < |Filter(s, f)|
    ensures Pick(s, f, j1) < Pick(s, f, j2)
  {
    var i1, i2 := Pick(s, f, j1), Pick(s, f, j2);
    if i2 <= i1 {
      FilterPrefixStep(s, i1, f);
      FilterPrefixMonotone(s, i2, i1, f);
      assert false;
    }
  }

  /** Every element of `s` that passes `f` is shown, at the position given by the
      number of kept elements before it. */
  lemma {:induction false} PickComplete<T>(s: seq<T>, f: T -> bool, i: nat)
    requires i < |s| && f(s[i])
    ensures |Filter(s[..i], f)| < |Filter(s, f)|
    ensures Pick(s, f, |Filter(s[..i], f)|) == i
  {
    FilterCons(s, f);
    if i == 0 {
      assert s[..0] == [];
    } else {
      PickStep(s, f, i - 1);
      PickComplete(s[1..], f, i - 1);
    }
  }

  /** When every element passes, view positions and source positions coincide. */
  lemma PickIdentity<T>(s: seq<T>, f: T -> bool, j: nat)
    requires forall k :: 0 <= k < |s| ==> f(s[k])
    requires j < |Filter(s, f)|
    ensures Pick(s, f, j) == j
  {
    var i := Pick(s, f, j);
    assert forall k :: 0 <= k < |s[..i]| ==> f(s[..i][k]);
    FilterKeepsAll(s[..i], f);
  }

  /** Cutting out position `i` shortens `s` by one and removes one occurrence
      of `s[i]` and nothing else. */
  lemma CutFacts<T>(s: seq<T>, i: nat)
    requires i < |s|
    ensures |s[..i] + s[i + 1..]| == |s| - 1
    ensures multiset(s[..i] + s[i + 1..]) + multiset{s[i]} == multiset(s)
  {
    assert s == s[..i] + ([s[i]] + s[i + 1..]);
  }
}

=== FILE: text.dfy ===
/** The two string operations the search box relies on: `toLowerCase`, restricted to
    ASCII letters, and `includes`, substring containment. */
module Text {

  predicate IsUpper(c: char) {
    'A' <= c <= 'Z'
  }

  /** One character lowered: an ASCII capital becomes its small letter, anything else is kept. */
  function LowerChar(c: char): char {
    if IsUpper(c) then (c as int + 32) as char else c
  }

  /** `s.toLowerCase()` on ASCII letters. */
  function Lower(s: string): (r: string)
    ensures |r| == |s|
    ensures forall i :: 0 <= i < |r| ==> !IsUpper(r[i])
    ensures forall i :: 0 <= i < |r| ==> r[i] == s[i] || (IsUpper(s[i]) && r[i] as int == s[i] as int + 32)
  {
    seq(|s|, i requires 0 <= i < |s| => LowerChar(s[i]))
  }

  /** Lowering twice is lowering once, so a query that is already lower case is unaffected. */
  lemma LowerIdempotent(s: string)
    ensures Lower(Lower(s)) == Lower(s)
  {
    var t := Lower(s);
    assert forall i :: 0 <= i < |t| ==> Lower(t)[i] == t[i];
  }

  /** `n` occurs in `h` starting at position `k`. */
  predicate OccursAt(h: string, n: string, k: int) {
    0 <= k && k + |n| <= |h| && h[k..k + |n|] == n
  }

  /** `h.includes(n)`: a left-to-right scan for an occurrence of `n`, which exists
      exactly when some position of `h` starts one. */
  function Includes(h: string, n: string): (r: bool)
    ensures r <==> exists k :: OccursAt(h, n, k)
    decreases |h|
  {
    if |h| < |n| then
      assert forall k :: !OccursAt(h, n, k);
      false
    else if n <= h then
      assert OccursAt(h, n, 0);
      true
    else
      var r := Includes(h[1..], n);
      IncludesShift(h, n);
      r
  }

  /** An occurrence in `h` that does not start at 0 is an occurrence in `h[1..]`, and back. */
  lemma IncludesShift(h: string, n: string)
    requires |h| > 0 && !(n <= h)
    ensures (exists k :: OccursAt(h, n, k)) <==> (exists k :: OccursAt(h[1..], n, k))
  {
    if k :| OccursAt(h, n, k) {
      assert k != 0;
      assert h[1..][k - 1..k - 1 + |n|] == h[k..k + |n|];
      assert OccursAt(h[1..], n, k - 1);
    }
    if k :| OccursAt(h[1..], n, k) {
      assert h[1..][k..k + |n|] == h[k + 1..k + 1 + |n|];
      assert OccursAt(h, n, k + 1);
    }
  }

  /** The empty string is contained in every string. */
  lemma IncludesEmpty(h: string)
    ensures Includes(h, "")
  {
    assert OccursAt(h, "", 0);
  }

  /** Every string contains itself. */
  lemma IncludesSelf(h: string)
    ensures Includes(h, h)
  {
    assert OccursAt(h, h, 0);
  }
}

=== FILE: ui.dfy ===
/** The user's view of the component: the events the rendered page can raise, and how
    each reaches a handler. The card buttons pass the card's position in the search
    view, while the handlers read that number as a position in the whole list;
    `StepAsWritten` keeps that wiring and `Step` translates the card position first. */
module Ui {
  import opened Wrappers
  import opened Catalog
  import opened App

  datatype Event =
    | SubmitForm
    | OpenForm
    | CloseForm
    | TypeText(field: TextField, value: string)
    | CheckFeatured(checked: bool)
    | TypeSearch(query: string)
    | EditCard(card: nat)
    | DeleteCard(card: nat)
    | FeatureCard(card: nat)

  /** The cards currently drawn in the product list. */
  function Cards(s: State): seq<Product> {
    SearchView(s.products, s.search)
  }

  /** An event the page can raise: form events need the modal on screen, card events
      need the card to be drawn. Card buttons, the add button and the search box are
      also allowed while the modal is shown, a superset of what the page permits. */
  predicate Enabled(s: State, e: Event): (b: bool)
    ensures b && (e.EditCard? || e.DeleteCard? || e.FeatureCard?) ==> e.card < |s.products|
    ensures b && (e.SubmitForm? || e.CloseForm? || e.TypeText? || e.CheckFeatured?) ==> s.form.open
  {
    match e
    case SubmitForm => s.form.open
    case CloseForm => s.form.open
    case TypeText(_, _) => s.form.open
    case CheckFeatured(_) => s.form.open
    case OpenForm => true
    case TypeSearch(_) => true
    case EditCard(c) => c < |Cards(s)|
    case DeleteCard(c) => c < |Cards(s)|
    case FeatureCard(c) => c < |Cards(s)|
  }

  /** The events that do not involve a card: only a submit touches the list, only the
      search box touches the query, and the form stays open while it is being filled in. */
  function FormStep(s: State, e: Event): (r: State)
    requires !e.EditCard? && !e.DeleteCard? && !e.FeatureCard?
    ensures !e.SubmitForm? ==> r.products == s.products
    ensures e.TypeSearch? ==> r.search == e.query && r.form == s.form
    ensures !e.TypeSearch? ==> r.search == s.search
    ensures e.OpenForm? ==> r.form.open
    ensures (e.TypeText? || e.CheckFeatured?) ==> r.form.open == s.form.open && r.form.editing == s.form.editing
    ensures e.CloseForm? ==> !r.form.open && r.form.editing.None?
  {
    match e
    case SubmitForm => Submit(s)
    case OpenForm => Open(s)
    case CloseForm => Reset(s)
    case TypeText(field, value) => ChangeText(s, field, value)
    case CheckFeatured(b) => ChangeFeatured(s, b)
    case TypeSearch(q) => SetSearch(s, q)
  }

  /** The page as written: a card's position in the search view is handed to the
      handlers, which apply it to the whole list. */
  function StepAsWritten(s: State, e: Event): (r: State)
    requires Enabled(s, e)
    ensures e.EditCard? ==>
      r.form.open && r.form.editing == Some(e.card) && r.form.data == s.products[e.card] &&
      r.products == s.products && r.search == s.search
    ensures e.DeleteCard? ==>
      r.products == s.products[..e.card] + s.products[e.card + 1..] &&
      r.form == s.form && r.search == s.search
    ensures e.FeatureCard? ==>
      r.products == ToggleAt(s.products, e.card) && r.form == s.form && r.search == s.search &&
      (IsFeatured(r.products[e.card]) <==> !IsFeatured(s.products[e.card]))
  {
    match e
    case EditCard(c) => Edit(s, c)
    case DeleteCard(c) => Delete(s, c)
    case FeatureCard(c) => Toggle(s, c)
    case _ => FormStep(s, e)
  }

  /** The page with card positions translated to list positions: every card button acts
      on the product drawn on that card, at the list position `CardIndex` gives it. */
  function Step(s: State, e: Event): (r: State)
    requires Enabled(s, e)
    ensures e.EditCard? ==>
      var k := CardIndex(s.products, s.search, e.card);
      r.form.open && r.form.editing == Some(k) && r.form.data == Cards(s)[e.card] &&
      r.products == s.products && r.search == s.search
    ensures e.DeleteCard? ==>
      var k := CardIndex(s.products, s.search, e.card);
      r.products == s.products[..k] + s.products[k + 1..] &&
      |r.products| == |s.products| - 1 &&
      multiset(r.products) + multiset{Cards(s)[e.card]} == multiset(s.products) &&
      r.form == s.form && r.search == s.search
    ensures e.FeatureCard? ==>
      var k := CardIndex(s.products, s.search, e.card);
      r.products == ToggleAt(s.products, k) && r.form == s.form && r.search == s.search &&
      s.products[k] == Cards(s)[e.card] && (IsFeatured(r.products[k]) <==> !IsFeatured(Cards(s)[e.card]))
  {
    match e
    case EditCard(c) => Edit(s, CardIndex(s.products, s.search, c))
    case DeleteCard(c) =>
      DeleteAtRemovesOne(s.products, CardIndex(s.products, s.search, c));
      Delete(s, CardIndex(s.products, s.search, c))
    case FeatureCard(c) => Toggle(s, CardIndex(s.products, s.search, c))
    case _ => FormStep(s, e)
  }

  /** Editing a card and submitting any valid record replaces exactly the product drawn on
      that card, at its own list position, and nothing else. */
  lemma EditCardThenSubmitReplacesDrawnProduct(s: State, c: nat, d: Product)
    requires c < |Cards(s)| && Valid(d)
    ensures
      var k := CardIndex(s.products, s.search, c);
      var edited := Step(s, EditCard(c));
      s.products[k] == Cards(s)[c] &&
      Submit(edited.(form := edited.form.(data := d))).products == s.products[k := d]
  {
  }

  /** When every product is drawn (in particular with an empty search box) the two
      wirings coincide. */
  lemma StepsAgreeWhenAllShown(s: State, e: Event)
    requires Enabled(s, e)
    requires s.search == "" || forall i :: 0 <= i < |s.products| ==> Matches(s.search, s.products[i])
    ensures StepAsWritten(s, e) == Step(s, e)
  {
    AllMatchShowsAll(s.products, s.search);
  }

  /** With products "a" and "b" and the query "b", only "b" is drawn, as card 0; its Delete
      button removes "a" and leaves "b" in place. */
  lemma AsWrittenDeletesWrongProduct()
    ensures
      var a := Product("a", "", "1", "", Some(false));
      var b := Product("b", "", "2", "", Some(false));
      var s := State([a, b], "b", Form(false, None, ResetData));
      Cards(s) == [b] && StepAsWritten(s, DeleteCard(0)).products == [b] &&
      Step(s, DeleteCard(0)).products == [a]
  {
    var a := Product("a", "", "1", "", Some(false));
    var b := Product("b", "", "2", "", Some(false));
    var s := State([a, b], "b", Form(false, None, ResetData));
    assert Text.Lower("a") == "a" && Text.Lower("b") == "b";
    assert !Matches("b", a) by {
      assert "a"[0] != "b"[0];
      assert "a"[1..] == "";
    }
    assert Matches("b", b) by {
      assert Text.OccursAt("b", "b", 0);
    }
    var f := MatchesQuery("b");
    assert !f(a) && f(b);
    Seqs.FilterCons([a, b], f);
    assert [a, b][1..] == [b];
    Seqs.FilterSingle(b, f);
    assert Cards(s) == [b];
    assert CardIndex(s.products, s.search, 0) == 1;
  }

  /** Every event the page can raise keeps every stored product valid. */
  lemma StepKeepsAllValid(s: State, e: Event)
    requires Enabled(s, e) && AllValid(s.products)
    ensures AllValid(Step(s, e).products)
    ensures AllValid(StepAsWritten(s, e).products)
  {
    match e
    case SubmitForm => SubmitKeepsAllValid(s);
    case EditCard(_) =>
    case DeleteCard(c) =>
      ToggleDeleteKeepAllValid(s, c);
      ToggleDeleteKeepAllValid(s, CardIndex(s.products, s.search, c));
    case FeatureCard(c) =>
      ToggleDeleteKeepAllValid(s, c);
      ToggleDeleteKeepAllValid(s, CardIndex(s.products, s.search, c));
    case _ =>
  }
}

=== FILE: wrappers.dfy ===
/** Optional values. In this model `None` stands for a JavaScript property that is absent
    (reads as `undefined`), `Some(v)` for one that is present with value `v`. */
module Wrappers {

  datatype Option<+T> = None | Some(value: T)
}
